=== FILE: README.md ===
# Probe server and loop driver, modelled in Dafny

The repository holds two small programs.

- A Go HTTP service with two probe endpoints, `/healthz` and `/readyz`, and a
  Prometheus `/metrics` endpoint. Every probe request passes through an
  instrumentation middleware. The middleware keeps an in-flight gauge and counts
  completed requests by method, path and status.
- A Python agent loop, `loop_driver.py`. Each iteration asks a language model
  for four steps: planner, executor, reviewer and loop controller. Each reply is
  turned into a JSON object, and the controller's decision says whether the loop
  goes on.

The model is functional. Requests are served one at a time. The metric registry
is a value: a map from label tuples to counts, plus an integer gauge. A handler
is the sequence of calls it makes on its `http.ResponseWriter`. The language model
is an oracle `reply: nat -> string`, where `reply(n)` is the text of the n-th
model call. `json.loads` is a parameter `parse: string -> Option<Json>` that may
fail.

`call_step`'s retry logic and `run`'s loop are each stated twice: once for any
judgement of replies (`Driver.Check`) or any loop body (`Driver.Body`), and then
for the program's own. The program's judgement is `Driver.Checker(parse)`, that
is `extract_json` followed by `ensure_schema`. The program's loop body is
`Driver.IterationOf(parse, reply)`. `Driver.CallAttempts`, `Driver.CallChain` and
`Driver.RunFrom` are reference definitions, the last two recursive; the loops of
`Driver.CallStepWith` and `Driver.RunLoop` are proved equal to them.

Files, one module each:

- `wrappers.dfy`: `Option` and `Result`.
- `decimal.dfy`: `fmt.Sprintf("%d", n)`, which renders the status label, and its inverse.
- `metrics.dfy`: the `http_requests_total` counter vector and the `http_inflight_requests` gauge.
- `server.dfy`: `internal/server/server.go`. Covers the handlers, the `responseWriter`
  decorator, the middleware, the exact-path mux, `New`, `Start` up to the listen
  call, and `Shutdown`.
- `app.dfy`: `cmd/app/main.go`, that is `getEnv` and the `PORT`/`"8080"` default.
- `json.dfy`: JSON values, plus Python truthiness and `+` on them.
- `extract.dfy`: `extract_json` and `ensure_schema`.
- `driver.dfy`: `LoopDriver.call_step` and `LoopDriver.run`.

Behaviour of the code as written that the model brings out:

- The decorator records the LAST code passed to `WriteHeader`. net/http sends the
  client the FIRST final one. A 1xx code other than 101 is sent as an interim
  response and does not fix the final status. `Server.SecondHeaderDivergence`
  shows a handler that calls `WriteHeader` with two different codes gets counted
  under a status its client never saw. `Server.InformationalDivergence` shows a
  lone informational code, such as 103, is counted as the status while the
  client's final status is 200. `Server.RecordedIsClientStatus` shows the two
  agree for handlers that set a final, non-zero status at most once, as their
  first call. Both probe handlers do that.
- The counter increment (server.go:55) is not deferred, so a panicking handler is
  not counted. The gauge decrement is deferred and always runs.
- A `Shutdown` before `Start` uses up the `sync.Once`. A server started afterwards
  is never shut down by `Shutdown`.
- `"decision"` is a required controller key, and `ensure_schema` fills it with `""`.
  So a reply without a decision continues the loop, and the `"stop"` default at
  loop_driver.py:183 is never used.
- `"plan"` does not end in `s`, so `ensure_schema` fills a missing plan with `""`.
  A later `adjust_plan` whose patch is a list then raises `TypeError` at
  loop_driver.py:189. The model returns this as `RunEnd.PatchFailed`.

## Model

| member | source | states |
|---|---|---|
| Decimal.NatString | internal/server/server.go:55 | the status numeral is non-empty, all digits, and has no leading zero unless the number is 0 |
| Decimal.FormatIntRoundTrip | internal/server/server.go:55 | parsing the `%d` label gives back the status code |
| Decimal.FormatIntInjective | internal/server/server.go:55 | two status codes share a counter label exactly when they are equal |
| Metrics.IncRequests | internal/metrics/metrics.go:10-16 | `WithLabelValues(k).Inc()` adds one to series k and creates it if needed; every other series and the gauge are unchanged |
| Server.Probe | internal/server/server.go:71-88 | any method but GET gets 405 and an empty body; GET gets 200 and exactly the probe's body ("ok" or "ready") |
| Server.Capture | internal/server/server.go:59-68 | every call reaches the wrapped writer unchanged; the status held is the code of the last WriteHeader, or 0 when WriteHeader was never called |
| Server.RecordedStatus | internal/server/server.go:51-54 | the recorded status is never 0, and it is 200 when the handler never called WriteHeader |
| Server.RecordedStatusRule | internal/server/server.go:51-54 | the recorded status is 200 if WriteHeader was never called, and otherwise the code of the last WriteHeader call, with 0 read as 200 |
| Server.RecordedIsClientStatus | internal/server/server.go:51-54 | when a handler sets a non-zero, non-informational status at most once, as its first call, the recorded status equals the final one the client receives, including the 200 default |
| Server.SecondHeaderDivergence | internal/server/server.go:65-67 | for WriteHeader(a) then WriteHeader(b), with a final and b non-zero, the recorded status is b and the client's is a, so they differ exactly when the codes do |
| Server.InformationalDivergence | internal/server/server.go:51-54 | a lone informational WriteHeader (1xx other than 101) is recorded as that code while the client's final status is 200 |
| Server.Middleware | internal/server/server.go:41-57 | gauge is one higher while the handler runs and equal afterwards, panic or not; calls forwarded unchanged; a normal return adds exactly 1 to (method, path, status) and nothing else; a panic leaves the counter unchanged; no count decreases |
| Server.Routes | internal/server/server.go:34-38 | exactly the three paths /healthz, /readyz and /metrics are registered |
| Server.New | internal/server/server.go:23-31 | the port is stored verbatim, the mux holds the three routes, and no http.Server exists and shutdown has not run |
| Server.ServeHTTP | internal/server/server.go:34-38 | an unregistered path gets http.NotFound and leaves the registry unchanged |
| Server.UnknownPathNotFound | internal/server/server.go:34-37 | for a server built by New on any port, any path other than the three, such as /healthz/extra or /admin, gets 404 and leaves both instruments unchanged (the `*` target aside, see "Left out") |
| Server.MetricsPathUninstrumented | internal/server/server.go:37 | /metrics is served by the exporter with neither instrument changed, whatever the method |
| Server.ProbeKey | internal/server/server.go:51-55 | a probe request is counted under (method, path, "200") for GET and (method, path, "405") otherwise |
| Server.ProbeServed | internal/server/server.go:35-36 | a probe request through the mux gets the handler's reply; exactly its series gains one and the gauge is back to its value before the request |
| Server.ServeAllCounts | internal/server/server.go:41-57 | after any sequence of requests the gauge is at its starting value, no count has decreased, and each series grew by the number of requests counted under it |
| Server.ServeFromStart | internal/metrics/metrics.go:10-24 | starting from the empty registry, after any requests the gauge reads 0 and each series reads exactly the number of requests counted under it |
| Server.HealthzBurst | internal/server/server.go:35 | n GET /healthz requests raise (GET, /healthz, 200) by exactly n and return the gauge to its start |
| Server.Start | internal/server/server.go:91-96 | the http.Server is built to listen on ":" followed by the port |
| Server.Shutdown | internal/server/server.go:102-110 | always returns nil; it shuts the http.Server down only on the first call and only if Start built one; afterwards the once is spent |
| Server.ShutdownAtMostOnce | internal/server/server.go:102-110 | over any number of calls the listener is shut down at most once, and exactly once if and only if the server was started and not yet shut down |
| Server.ShutdownBeforeStartDisarms | internal/server/server.go:102-108 | a Shutdown before Start spends the once, so a later Shutdown never stops the started server |
| App.GetEnv | cmd/app/main.go:18-23 | the value verbatim when set and non-empty, otherwise the default; the result is empty exactly when the default is empty and the variable is unset or empty |
| App.GetEnvVerbatim | cmd/app/main.go:19-20 | whitespace and colons in a value survive; an empty value gives the default |
| App.Main | cmd/app/main.go:10-12 | the server port is PORT when non-empty, otherwise "8080", and the listen address is ":" followed by that port |
| Json.PyAdd | loop_driver.py:189 | Python `+`: lists and strings concatenate, numbers add, and any other pair of operands is a TypeError |
| Extract.FindFrom | loop_driver.py:40 | the first occurrence of the character at or after i, or -1 when there is none |
| Extract.Find | loop_driver.py:40 | `str.find`: the first index of the character, or -1 when it does not occur |
| Extract.RFindBelow | loop_driver.py:41 | the last occurrence of the character below n, or -1 when there is none |
| Extract.RFind | loop_driver.py:41 | `str.rfind`: the last index of the character, or -1 when it does not occur |
| Extract.Snippet | loop_driver.py:40-44 | on success the slice runs from the first '{' to the last '}' inclusive, has length last-first+1, and starts with '{' and ends with '}' |
| Extract.SnippetFailsIff | loop_driver.py:42-43 | extraction fails if and only if no '}' comes after some '{' (no '{', no '}', or the last '}' before the first '{') |
| Extract.ExtractJson | loop_driver.py:36-45 | fails with "no JSON object" exactly when the slice fails; otherwise the parser is handed exactly the slice and its verdict is returned |
| Extract.FillMissing | loop_driver.py:51-53 | every required key is present, existing keys keep their values, and every added key is a required one holding its default |
| Extract.EnsureSchema | loop_driver.py:48-54 | fails exactly for a non-object; otherwise returns an object holding every required key |
| Extract.EnsureSchemaContents | loop_driver.py:51-53 | the keys become the old keys plus the required ones; old values are kept; each missing key gets [] if its name ends in "s", otherwise "" |
| Extract.FillMissingComplete | loop_driver.py:51-53 | when every required key is present the object is unchanged |
| Extract.EnsureSchemaIdempotent | loop_driver.py:48-54 | applying ensure_schema twice equals applying it once |
| Driver.Attempt | loop_driver.py:122-125 | an attempt succeeds exactly when extract_json succeeds and, if keys are required, yields an object; the value is the extracted one, passed through ensure_schema when keys are required, and then holds every required key |
| Driver.Preview | loop_driver.py:133 | `last_raw[:200]`: at most 200 characters, the whole text when it is that short, and exactly its first 200 characters otherwise |
| Driver.CallAttemptsSpec | loop_driver.py:110-133 | for any judgement of replies: success exactly when one of the two replies is accepted; a second call exactly when the first is rejected; on success the accepted reply and its data; on failure both rejected and the error quoting the second |
| Driver.CallStepWith | loop_driver.py:110-133 | the while loop of call_step computes exactly the two attempts written out one after the other |
| Driver.CallStep | loop_driver.py:109-133 | 1 or 2 model calls; every call before the last failed; success returns the first reply that parses and passes the schema; failure comes only after two failed calls and quotes the last reply |
| Driver.CallChain | loop_driver.py:139-168 | steps called in turn use at most two calls each; a success has one datum per step; a failure made at least two calls |
| Driver.ChainAccepted | loop_driver.py:139-168 | every step's datum in a successful chain is the judgement of one of the replies the chain consumed |
| Driver.ChainAcceptedAt | loop_driver.py:139-168 | step i's datum in a successful chain is the judgement of one of the replies the chain consumed |
| Driver.ChainFailure | loop_driver.py:133 | a failed chain made at least two calls, both of its last two replies were rejected by the step its error names, and the error quotes the last reply |
| Driver.CheckerObjects | loop_driver.py:122-125 | with call_step's own judgement, every step of a successful chain that requires keys yields an object holding them |
| Driver.CallSteps | loop_driver.py:139-170 | the four steps use 1 to 8 model calls; on success each step's data holds its required keys and is exactly what the planner-to-controller chain of call_step accepted; on failure the error is the chain's |
| Driver.CallStepsAccepted | loop_driver.py:122-125 | each of the four steps' data is what extract_json and ensure_schema accepted from one of the replies the iteration consumed |
| Driver.SummaryOfCompleteSteps | loop_driver.py:173-181 | after the four steps the state takes the planner's plan, the executor's commands, the reviewer's findings and deltas and the controller's reason, and keeps the index and the goal |
| Driver.Decide | loop_driver.py:183-185 | the loop halts exactly when "decision" is missing or is "stop" or "pause" |
| Driver.EndIteration | loop_driver.py:173-189 | the decision is the controller's; on a halt the state is the summary; otherwise the summary with only the plan possibly replaced by the patch |
| Driver.Iteration | loop_driver.py:137-189 | one loop body: it stores the index, makes exactly CallSteps' model calls, ends the run with the step error when a step fails twice, halts exactly on the controller's halt decision, and otherwise leaves EndIteration's state or ends with its TypeError |
| Driver.IterationSound | loop_driver.py:137-189 | the loop body keeps the goal, sets the index, makes 1 to 8 calls, and has step data exactly when it did not end on a failed step |
| Driver.RunFromTrace | loop_driver.py:136-189 | a run from index i records at most one iteration per remaining index, each judged complete, and all but the last continued |
| Driver.RunFromEnd | loop_driver.py:185-192 | a run halts exactly when its last recorded iteration decided to halt; it is exhausted only after an iteration at every index; a failed patch follows a decision to continue |
| Driver.RunFromProgress | loop_driver.py:136-189 | the goal is kept, the stored index is that of the last iteration run, and the calls made are at most 8 per iteration |
| Driver.RunLoop | loop_driver.py:136-192 | the for loop with early returns computes exactly the recursive run |
| Driver.Run | loop_driver.py:135-192 | exactly the recursive run of the loop body over range(max_iter); at most max(max_iter, 0) iterations; the run halts exactly after a controller decision to halt; all earlier decisions continue; every step's data holds its required keys; at most 8 model calls per iteration |
| Driver.DecisionRule | loop_driver.py:183-186 | with a decision present, the loop stops if and only if it is "stop" or "pause" |
| Driver.MissingDecisionContinues | loop_driver.py:168 | a controller reply without "decision" gets "" after ensure_schema and continues the loop, so the "stop" default is unreachable |
| Driver.AdjustPlanPrepends | loop_driver.py:187-189 | "adjust_plan" with a non-empty list patch makes the plan the patch followed by the planner's plan |
| Driver.PlanFromPlanner | loop_driver.py:173-176 | without "adjust_plan", or with a falsy patch, the plan is the planner's plan |
| Driver.MissingPlanBreaksPatch | loop_driver.py:53 | a planner reply without "plan" gets "", so a later list patch cannot be added to it and the iteration raises TypeError |

## Left out

- `Start`'s `ListenAndServe` and `main`'s `log.Fatalf` exit are left out. They are TCP and process I/O. `Start` is modelled only up to building the `http.Server` with its address.
- The `/metrics` reply is the opaque `Reply.Exposition`. The Prometheus exposition text and `promhttp.Handler` are library code.
- Atomic counter and gauge updates, `sync.Once`'s thread safety and concurrent requests are left out. Requests are served one after another.
- Go's `ServeMux` path cleaning, its redirects and its host patterns are left out. Routing is an exact lookup on `r.URL.Path`.
- The request target `*` is left out. net/http answers `OPTIONS *` with 200 before the mux runs, and `ServeMux` answers any other `*` request with 400. The model routes the path `"*"` like any unregistered path.
- Server.UnknownPathNotFound: its 404 for every other path does not hold for the `*` target, which net/http answers itself as described above.
- Metrics.IncRequests: Prometheus counters and gauges hold float64 values (a counter adds to a uint64 and is read back as a float64). The model uses unbounded integers, which agree with them below 2^53. So "adds exactly 1" here, and in `Server.Middleware`, matches the exported value only in that range.
- The `log.Printf` calls in `Start` ("Server starting on ...") and `Shutdown` ("Server shutting down") are left out. They are console output. The error that `http.Server.Shutdown` returns is discarded by the code and is not modelled.
- Server.RecordedIsClientStatus: promises agreement only when the first call's code is final. An informational first code is covered by `Server.InformationalDivergence` instead.
- Checks done by the underlying writer are left out. This includes the panic on `WriteHeader` codes outside 100-999 and any headers it sets.
- `net/http`'s 404 is modelled as `WriteHeader(404)` plus the body `"404 page not found\n"`. Its headers are left out.
- Go strings are byte strings and Python slices count code points. Both are modelled as Dafny `string`.
- The Anthropic client, prompt-file reads, the JSONL log, `time.strftime`, `print` and `json.dumps` are left out. They are network, disk and library code. The correcting prompt of a retry shows up only through the oracle's next reply.
- An exception raised by the model client itself is left out. In the model every call returns a reply.
- `json.loads` is the `parse` parameter. JSON numbers are integers only, and float values are not modelled.
- Dict key order is not modelled, because objects are maps. `ensure_schema` returns a new object instead of mutating its argument. The caller sees the same object either way.
- `LoopDriver.__init__` reads the environment. This covers `ANTHROPIC_API_KEY`, `CLAUDE_MODEL`, parsing `MAX_ITER` with `int()`, and stripping `LOOP_GOAL` with its default goal text. In the model the initial state dict and `max_iter` are parameters of `Driver.Run` instead.
- The `print` on a halt and on the `for ... else` exit is left out. It is console output; the model reports the end as `RunEnd.Halted` or `RunEnd.Exhausted`.

=== FILE: app.dfy ===
/** cmd/app/main.go: the port comes from the PORT environment variable, with
    "8080" when it is unset or empty. The process environment is a map from
    variable names to values. */
module App {
  import Server
  import opened Wrappers

  const PortVariable := "PORT"
  const DefaultPort := "8080"

  /** os.Getenv: the value, or "" for an unset variable. */
  function OsGetenv(env: map<string, string>, key: string): string
  {
    if key in env then env[key] else ""
  }

  /** getEnv: the variable's value, verbatim, when it is set and non-empty;
      otherwise the default. */
  function GetEnv(env: map<string, string>, key: string, defaultValue: string): (v: string)
    ensures key in env && env[key] != "" ==> v == env[key]
    ensures key !in env || env[key] == "" ==> v == defaultValue
    ensures v == "" <==> defaultValue == "" && (key !in env || env[key] == "")
  {
    var value := OsGetenv(env, key);
    if value != "" then value else defaultValue
  }

  /** main up to ListenAndServe: the server it builds and the address it listens on. */
  function Main(env: map<string, string>): (r: (Server.Srv, string))
    ensures PortVariable in env && env[PortVariable] != "" ==> r.0.port == env[PortVariable]
    ensures PortVariable !in env || env[PortVariable] == "" ==> r.0.port == DefaultPort
    ensures r.1 == ":" + r.0.port
    ensures r.0.mux == Server.Routes() && r.0.httpServer == Some(r.1)
  {
    var port := GetEnv(env, PortVariable, DefaultPort);
    Server.Start(Server.New(port))
  }

  /** The value passes through untouched: surrounding spaces and colons survive. */
  lemma GetEnvVerbatim()
    ensures GetEnv(map["WHITESPACE_VAR" := "  has spaces  "], "WHITESPACE_VAR", "default") == "  has spaces  "
    ensures GetEnv(map["SPECIAL_VAR" := "test:value:123"], "SPECIAL_VAR", "default") == "test:value:123"
    ensures GetEnv(map["EMPTY_VAR" := ""], "EMPTY_VAR", "default") == "default"
  {
  }
}

=== FILE: decimal.dfy ===
/** Decimal rendering of integers as fmt.Sprintf("%d", n) produces it, and the
    parser that inverts it. The status label of the request counter is built
    this way, so distinct status codes must give distinct labels. */
module Decimal {

  function DigitChar(d: nat): (c: char)
    requires d < 10
    ensures '0' <= c <= '9'
  {
    ('0' as int + d) as char
  }

  function DigitValue(c: char): int
  {
    c as int - '0' as int
  }

  predicate IsDigits(s: string)
  {
    forall i :: 0 <= i < |s| ==> '0' <= s[i] <= '9'
  }

  /** The shortest numeral of n: digits only, no leading zero unless n is 0. */
  function NatString(n: nat): (s: string)
    ensures 1 <= |s|
    ensures IsDigits(s)
    ensures s[0] == '0' ==> n == 0
    decreases n
  {
    if n < 10 then [DigitChar(n)] else NatString(n / 10) + [DigitChar(n % 10)]
  }

  /** `%d`: a minus sign for a negative number, then the numeral of its magnitude. */
  function FormatInt(n: int): (s: string)
    ensures 1 <= |s|
    ensures s[0] == '-' <==> n < 0
    ensures n >= 0 ==> IsDigits(s)
  {
    if n < 0 then "-" + NatString(-n) else NatString(n)
  }

  /** Reads a numeral most-significant digit first. */
  function ParseNat(s: string): int
  {
    if |s| == 0 then 0 else ParseNat(s[..|s| - 1]) * 10 + DigitValue(s[|s| - 1])
  }

  function ParseInt(s: string): int
  {
    if 0 < |s| && s[0] == '-' then -ParseNat(s[1..]) else ParseNat(s)
  }

  lemma {:induction false} ParseNatString(n: nat)
    ensures ParseNat(NatString(n)) == n
    decreases n
  {
    var s := NatString(n);
    if n < 10 {
      assert s[..|s| - 1] == [];
    } else {
      assert s[..|s| - 1] == NatString(n / 10);
      ParseNatString(n / 10);
    }
  }

  /** Reading back what `%d` wrote gives the number. */
  lemma FormatIntRoundTrip(n: int)
    ensures ParseInt(FormatInt(n)) == n
  {
    if n < 0 {
      assert FormatInt(n)[1..] == NatString(-n);
      ParseNatString(-n);
    } else {
      ParseNatString(n);
    }
  }

  /** Two numbers share a label exactly when they are equal. */
  lemma FormatIntInjective(a: int, b: int)
    ensures FormatInt(a) == FormatInt(b) <==> a == b
  {
    FormatIntRoundTrip(a);
    FormatIntRoundTrip(b);
  }
}

=== FILE: driver.dfy ===
/** LoopDriver of loop_driver.py: call_step's bounded retry and the run loop's
    decision and plan-update rule. The language model is an oracle: `reply(n)`
    is the text of the n-th model call of the run, and json.loads is `parse`. */
module Driver {
  import opened Wrappers
  import opened Json
  import opened Extract

  /** call_step asks the model at most twice. */
  const MaxAttempts: nat := 2
  /** The error raised after two failures quotes the last reply's first 200 characters. */
  const PreviewLength: nat := 200

  const PlannerKeys := ["plan", "next_actions", "risks", "assumptions"]
  const ExecutorKeys := ["commands", "expected_outcomes", "fallbacks"]
  const ReviewerKeys := ["findings", "deltas", "suggested_changes"]
  const ControllerKeys := ["decision", "reason", "plan_patch"]

  datatype StepResult = StepResult(name: string, raw: string, data: Json)

  /** The RuntimeError raised when both attempts fail. */
  datatype StepError = StepError(step: string, lastRaw: string)

  datatype AttemptError = Unextractable(cause: ExtractError) | OffSchema(schema: SchemaError)

  /** One attempt on a reply: extract_json, then ensure_schema when `required`
      is non-empty (an empty list and None are both falsy). */
  function Attempt(raw: string, parse: string -> Option<Json>, required: seq<string>): (r: Result<Json, AttemptError>)
    ensures r.Success? <==> ExtractJson(raw, parse).Success? && (|required| == 0 || ExtractJson(raw, parse).value.JObj?)
    ensures r.Success? && |required| == 0 ==> r.value == ExtractJson(raw, parse).value
    ensures r.Success? && |required| > 0 ==> r.value == EnsureSchema(ExtractJson(raw, parse).value, required).value
    ensures |required| > 0 && r.Success? ==> r.value.JObj? && forall k :: k in required ==> k in r.value.fields
  {
    match ExtractJson(raw, parse)
    case Failure(e) => Failure(Unextractable(e))
    case Success(data) =>
      if |required| == 0 then Success(data)
      else
        match EnsureSchema(data, required)
        case Failure(e) => Failure(OffSchema(e))
        case Success(filled) => Success(filled)
  }

  /** A judgement of a reply against the keys a step requires. call_step's is
      Checker(parse); the chain of steps below is stated for any judgement. */
  type Check = (string, seq<string>) -> Result<Json, AttemptError>

  function Checker(parse: string -> Option<Json>): Check
  {
    (raw: string, required: seq<string>) => Attempt(raw, parse, required)
  }

  /** The reply to model call n is rejected. */
  predicate FailsAt(reply: nat -> string, check: Check, required: seq<string>, n: nat)
  {
    check(reply(n), required).Failure?
  }

  /** The reply to model call n is accepted as `data`. */
  predicate AcceptedAt(reply: nat -> string, check: Check, required: seq<string>, n: nat, data: Json)
  {
    check(reply(n), required) == Success(data)
  }

  /** last_raw[:200] */
  function Preview(s: string): (p: string)
    ensures |p| <= PreviewLength
    ensures p <= s
    ensures |s| <= PreviewLength ==> p == s
    ensures |s| > PreviewLength ==> p == s[..PreviewLength]
  {
    if |s| <= PreviewLength then s else s[..PreviewLength]
  }

  /** What call_step returned and how many model calls it made. */
  datatype StepCall = StepCall(result: Result<StepResult, StepError>, used: nat)

  /** call_step's two attempts written out one after the other: the reference
      the loop of CallStep is proved against. */
  function CallAttempts(step: string, required: seq<string>, check: Check, reply: nat -> string, next: nat): (c: StepCall)
    ensures 1 <= c.used <= MaxAttempts
    ensures c.result.Failure? ==> c.used == MaxAttempts
  {
    match check(reply(next), required)
    case Success(data) => StepCall(Success(StepResult(step, reply(next), data)), 1)
    case Failure(_) =>
      match check(reply(next + 1), required)
      case Success(data) => StepCall(Success(StepResult(step, reply(next + 1), data)), 2)
      case Failure(_) => StepCall(Failure(StepError(step, Preview(reply(next + 1)))), 2)
  }

  /** What the two attempts give: success exactly when one of the two replies
      is accepted, a second call exactly when the first reply is rejected, the
      accepted reply and its data on success, and on failure both replies
      rejected and the error previewing the second. */
  lemma CallAttemptsSpec(step: string, required: seq<string>, check: Check, reply: nat -> string, next: nat)
    ensures var c := CallAttempts(step, required, check, reply, next);
      && (c.result.Success? <==> !FailsAt(reply, check, required, next) || !FailsAt(reply, check, required, next + 1))
      && (c.used == MaxAttempts <==> FailsAt(reply, check, required, next))
      && (c.result.Success? ==>
            && c.result.value.name == step
            && c.result.value.raw == reply(next + c.used - 1)
            && AcceptedAt(reply, check, required, next + c.used - 1, c.result.value.data))
      && (c.result.Failure? ==>
            && FailsAt(reply, check, required, next) && FailsAt(reply, check, required, next + 1)
            && c.result.error == StepError(step, Preview(reply(next + 1))))
  {
  }

  /** call_step: model calls `next`, `next + 1`, ... until one reply parses and
      passes the schema, at most MaxAttempts of them. */
  method CallStep(step: string, required: seq<string>, parse: string -> Option<Json>, reply: nat -> string, next: nat)
    returns (r: Result<StepResult, StepError>, used: nat)
    ensures 1 <= used <= MaxAttempts
    ensures forall n :: next <= n < next + used - 1 ==> Attempt(reply(n), parse, required).Failure?
    ensures r.Success? ==>
      && r.value.name == step
      && r.value.raw == reply(next + used - 1)
      && Attempt(reply(next + used - 1), parse, required) == Success(r.value.data)
    ensures r.Failure? ==>
      && used == MaxAttempts
      && Attempt(reply(next + used - 1), parse, required).Failure?
      && r.error == StepError(step, Preview(reply(next + used - 1)))
    ensures StepCall(r, used) == CallAttempts(step, required, Checker(parse), reply, next)
  {
    r, used := CallStepWith(step, required, Checker(parse), reply, next);
    assert used == 2 ==> FailsAt(reply, Checker(parse), required, next);
  }

  /** call_step's retry loop for a given judgement of the replies. */
  method CallStepWith(step: string, required: seq<string>, check: Check, reply: nat -> string, next: nat)
    returns (r: Result<StepResult, StepError>, used: nat)
    ensures StepCall(r, used) == CallAttempts(step, required, check, reply, next)
  {
    var attempts: nat := 0;
    var lastRaw := "";
    while attempts < MaxAttempts
      invariant attempts <= MaxAttempts
      invariant forall n :: next <= n < next + attempts ==> FailsAt(reply, check, required, n)
      invariant 0 < attempts ==> lastRaw == reply(next + attempts - 1)
    {
      attempts := attempts + 1;
      var raw := reply(next + attempts - 1);
      lastRaw := raw;
      var data := check(raw, required);
      if data.Success? {
        assert attempts == 2 ==> FailsAt(reply, check, required, next);
        return Success(StepResult(step, raw, data.value)), attempts;
      }
    }
    assert FailsAt(reply, check, required, next) && FailsAt(reply, check, required, next + 1);
    return Failure(StepError(step, Preview(lastRaw))), attempts;
  }

  /** The driver's state dict. */
  datatype LoopState = LoopState(
    iteration: int,
    goal: string,
    plan: Json,
    actions: Json,
    notes: Json,
    results: Json,
    stopReason: Json)

  /** The data of the four steps of one iteration, each an object. */
  datatype Steps = Steps(
    planner: map<string, Json>,
    executor: map<string, Json>,
    reviewer: map<string, Json>,
    controller: map<string, Json>)

  predicate HasKeys(data: map<string, Json>, required: seq<string>)
  {
    forall k :: k in required ==> k in data
  }

  /** Every step's data holds the keys its call_step required. */
  predicate Complete(s: Steps)
  {
    && HasKeys(s.planner, PlannerKeys)
    && HasKeys(s.executor, ExecutorKeys)
    && HasKeys(s.reviewer, ReviewerKeys)
    && HasKeys(s.controller, ControllerKeys)
  }

  /** The state.update after the four steps. */
  function Summarize(st: LoopState, s: Steps): LoopState
  {
    st.(
      plan := Get(s.planner, "plan", JArr([])),
      actions := Get(s.executor, "commands", JArr([])),
      notes := Get(s.reviewer, "findings", JArr([])),
      results := Get(s.reviewer, "deltas", JArr([])),
      stopReason := Get(s.controller, "reason", JNull))
  }

  /** With every required key present, the summary takes the planner's plan,
      the executor's commands, the reviewer's findings and deltas and the
      controller's reason, and keeps the index and the goal. */
  lemma SummaryOfCompleteSteps(st: LoopState, s: Steps)
    requires Complete(s)
    ensures var t := Summarize(st, s);
      && t.plan == s.planner["plan"]
      && t.actions == s.executor["commands"]
      && t.notes == s.reviewer["findings"]
      && t.results == s.reviewer["deltas"]
      && t.stopReason == s.controller["reason"]
      && t.iteration == st.iteration && t.goal == st.goal
  {
    assert "plan" in PlannerKeys && "commands" in ExecutorKeys;
    assert "findings" in ReviewerKeys && "deltas" in ReviewerKeys && "reason" in ControllerKeys;
  }

  datatype Decision = Halt | Continue

  /** decision = controller.get("decision", "stop"); "stop" and "pause" end the loop. */
  function Decide(controller: map<string, Json>): (d: Decision)
    ensures d == Halt <==>
      "decision" !in controller || controller["decision"] == JStr("stop") || controller["decision"] == JStr("pause")
  {
    var decision := Get(controller, "decision", JStr("stop"));
    if decision == JStr("stop") || decision == JStr("pause") then Halt else Continue
  }

  /** The TypeError of `plan_patch + plan` on operands Python cannot add. */
  datatype PatchError = PatchTypeError(patch: Json, plan: Json)

  /** The end of one iteration: the decision, and the state after the summary
      and, when the loop goes on under "adjust_plan" with a truthy plan_patch,
      after prepending the patch to the plan. */
  datatype IterationEnd = IterationEnd(decision: Decision, state: Result<LoopState, PatchError>)

  function EndIteration(st: LoopState, s: Steps): (r: IterationEnd)
    ensures r.decision == Decide(s.controller)
    ensures r.decision == Halt ==> r.state == Success(Summarize(st, s))
    ensures r.state.Success? ==> r.state.value == Summarize(st, s).(plan := r.state.value.plan)
  {
    var summary := Summarize(st, s);
    var decision := Decide(s.controller);
    if decision == Halt then IterationEnd(Halt, Success(summary))
    else if Get(s.controller, "decision", JStr("stop")) == JStr("adjust_plan")
         && Truthy(Get(s.controller, "plan_patch", JNull)) then
      match PyAdd(Get(s.controller, "plan_patch", JArr([])), summary.plan)
      case Some(plan) => IterationEnd(Continue, Success(summary.(plan := plan)))
      case None => IterationEnd(Continue, Failure(PatchTypeError(Get(s.controller, "plan_patch", JArr([])), summary.plan)))
    else IterationEnd(Continue, Success(summary))
  }

  /** A step of the loop: its prompt file, which also names it in errors, and
      the keys its reply must carry. */
  datatype StepSpec = StepSpec(prompt: string, keys: seq<string>)

  /** The four steps of one iteration, in the order run calls them. */
  const StepSpecs := [
    StepSpec("01_planner.prompt.md", PlannerKeys),
    StepSpec("02_executor.prompt.md", ExecutorKeys),
    StepSpec("03_reviewer.prompt.md", ReviewerKeys),
    StepSpec("04_loop_controller.prompt.md", ControllerKeys)]

  /** What a chain of call_step calls returned and how many model calls it made. */
  datatype ChainCall = ChainCall(data: Result<seq<Json>, StepError>, used: nat)

  /** call_step for each step in turn, model calls numbered from `next`; the
      first step that fails twice ends the chain with its error. */
  function CallChain(specs: seq<StepSpec>, check: Check, reply: nat -> string, next: nat): (c: ChainCall)
    decreases |specs|
    ensures c.used <= MaxAttempts * |specs|
    ensures c.data.Success? ==> |specs| <= c.used && |c.data.value| == |specs|
    ensures c.data.Failure? ==> 2 <= c.used
  {
    if |specs| == 0 then ChainCall(Success([]), 0)
    else
      var first := CallAttempts(specs[0].prompt, specs[0].keys, check, reply, next);
      match first.result
      case Failure(e) => ChainCall(Failure(e), first.used)
      case Success(step) =>
        var rest := CallChain(specs[1..], check, reply, next + first.used);
        match rest.data
        case Failure(e) => ChainCall(Failure(e), first.used + rest.used)
        case Success(data) => ChainCall(Success([step.data] + data), first.used + rest.used)
  }

  /** Some model call in [from, to) had its reply accepted as `data`. */
  predicate AcceptedWithin(reply: nat -> string, check: Check, required: seq<string>, from: nat, to: nat, data: Json)
  {
    exists n :: from <= n < to && AcceptedAt(reply, check, required, n, data)
  }

  /** Every step's data in a successful chain is what the judgement made of
      one of the replies the chain consumed. */
  lemma ChainAccepted(specs: seq<StepSpec>, check: Check, reply: nat -> string, next: nat)
    requires CallChain(specs, check, reply, next).data.Success?
    ensures var c := CallChain(specs, check, reply, next);
      forall i :: 0 <= i < |specs| ==> AcceptedWithin(reply, check, specs[i].keys, next, next + c.used, c.data.value[i])
  {
    forall i | 0 <= i < |specs|
      ensures AcceptedWithin(reply, check, specs[i].keys, next, next + CallChain(specs, check, reply, next).used,
                             CallChain(specs, check, reply, next).data.value[i])
    {
      ChainAcceptedAt(specs, check, reply, next, i);
    }
  }

  /** Step i of a successful chain was accepted from one of its replies. */
  lemma {:induction false} ChainAcceptedAt(specs: seq<StepSpec>, check: Check, reply: nat -> string, next: nat, i: nat)
    requires CallChain(specs, check, reply, next).data.Success?
    requires i < |specs|
    ensures var c := CallChain(specs, check, reply, next);
      AcceptedWithin(reply, check, specs[i].keys, next, next + c.used, c.data.value[i])
    decreases i
  {
    var first := CallAttempts(specs[0].prompt, specs[0].keys, check, reply, next);
    if i == 0 {
      ChainAcceptedFirst(specs, check, reply, next);
    } else {
      ChainAfterFirst(specs, check, reply, next);
      var rest := CallChain(specs[1..], check, reply, next + first.used);
      ChainAcceptedAt(specs[1..], check, reply, next + first.used, i - 1);
      assert specs[1..][i - 1] == specs[i];
      AcceptedWithinWiden(reply, check, specs[i].keys, next + first.used, next + first.used + rest.used,
                          next, next + CallChain(specs, check, reply, next).used, rest.data.value[i - 1]);
    }
  }

  /** The first step of a successful chain was accepted from one of its replies. */
  lemma ChainAcceptedFirst(specs: seq<StepSpec>, check: Check, reply: nat -> string, next: nat)
    requires 0 < |specs|
    requires CallChain(specs, check, reply, next).data.Success?
    ensures var c := CallChain(specs, check, reply, next);
      AcceptedWithin(reply, check, specs[0].keys, next, next + c.used, c.data.value[0])
  {
    var first := CallAttempts(specs[0].prompt, specs[0].keys, check, reply, next);
    CallAttemptsSpec(specs[0].prompt, specs[0].keys, check, reply, next);
    ChainAfterFirst(specs, check, reply, next);
    assert AcceptedAt(reply, check, specs[0].keys, next + first.used - 1, first.result.value.data);
  }

  /** Acceptance within a range of calls carries over to any wider range. */
  lemma AcceptedWithinWiden(reply: nat -> string, check: Check, required: seq<string>, from: nat, to: nat,
                            from': nat, to': nat, data: Json)
    requires AcceptedWithin(reply, check, required, from, to, data)
    requires from' <= from && to <= to'
    ensures AcceptedWithin(reply, check, required, from', to', data)
  {
    var n :| from <= n < to && AcceptedAt(reply, check, required, n, data);
    assert from' <= n < to';
  }

  /** A chain that fails stops at a step both of whose attempts were rejected:
      the last two model calls it made. Its error names that step and previews
      the last reply. */
  lemma {:induction false} ChainFailure(specs: seq<StepSpec>, check: Check, reply: nat -> string, next: nat)
    requires CallChain(specs, check, reply, next).data.Failure?
    ensures ChainFailsAt(specs, check, reply, next, CallChain(specs, check, reply, next))
    decreases |specs|
  {
    var first := CallAttempts(specs[0].prompt, specs[0].keys, check, reply, next);
    if first.result.Failure? {
      ChainFailsFirst(specs, check, reply, next);
    } else {
      ChainAfterFirst(specs, check, reply, next);
      var rest := CallChain(specs[1..], check, reply, next + first.used);
      ChainFailure(specs[1..], check, reply, next + first.used);
      ChainFailsLater(specs, check, reply, next, first.used, rest, CallChain(specs, check, reply, next));
    }
  }

  /** A chain whose first step succeeds goes on as the chain of the other
      steps, from the call after the first step's last. */
  lemma ChainAfterFirst(specs: seq<StepSpec>, check: Check, reply: nat -> string, next: nat)
    requires 0 < |specs|
    requires CallAttempts(specs[0].prompt, specs[0].keys, check, reply, next).result.Success?
    ensures var first := CallAttempts(specs[0].prompt, specs[0].keys, check, reply, next);
      var rest := CallChain(specs[1..], check, reply, next + first.used);
      var c := CallChain(specs, check, reply, next);
      && c.used == first.used + rest.used
      && (rest.data.Failure? ==> c.data == Failure(rest.data.error))
      && (rest.data.Success? ==> c.data == Success([first.result.value.data] + rest.data.value))
  {
  }

  /** A chain whose first step fails stops there. */
  lemma ChainFailsFirst(specs: seq<StepSpec>, check: Check, reply: nat -> string, next: nat)
    requires 0 < |specs|
    requires CallAttempts(specs[0].prompt, specs[0].keys, check, reply, next).result.Failure?
    ensures CallChain(specs, check, reply, next).data.Failure?
    ensures ChainFailsAt(specs, check, reply, next, CallChain(specs, check, reply, next))
  {
    var first := CallAttempts(specs[0].prompt, specs[0].keys, check, reply, next);
    var c := CallChain(specs, check, reply, next);
    assert c == ChainCall(Failure(first.result.error), 2);
    assert LastTwoRejected(specs, check, reply, next + 2, c.data.error.step, 0);
  }

  /** A chain whose first step took `used` calls and whose remaining steps then
      failed, fails as they did. */
  lemma ChainFailsLater(specs: seq<StepSpec>, check: Check, reply: nat -> string, next: nat, used: nat, rest: ChainCall, c: ChainCall)
    requires 0 < |specs| && rest.data.Failure?
    requires ChainFailsAt(specs[1..], check, reply, next + used, rest)
    requires c.data.Failure? && c.data.error == rest.data.error && c.used == used + rest.used
    ensures ChainFailsAt(specs, check, reply, next, c)
  {
    var end := next + used + rest.used;
    var j :| 0 <= j < |specs[1..]| && LastTwoRejected(specs[1..], check, reply, end, rest.data.error.step, j);
    assert specs[1..][j] == specs[j + 1];
    assert LastTwoRejected(specs, check, reply, end, rest.data.error.step, j + 1);
  }

  /** Step i of `specs` is the one named `step`, and it rejected the replies to
      the two model calls before `end`. */
  predicate LastTwoRejected(specs: seq<StepSpec>, check: Check, reply: nat -> string, end: nat, step: string, i: nat)
    requires i < |specs|
  {
    && specs[i].prompt == step
    && 2 <= end
    && FailsAt(reply, check, specs[i].keys, end - 2)
    && FailsAt(reply, check, specs[i].keys, end - 1)
  }

  /** A failed chain: at least two calls made, the error previews the last
      reply, and names a step that rejected the last two replies. */
  predicate ChainFailsAt(specs: seq<StepSpec>, check: Check, reply: nat -> string, next: nat, c: ChainCall)
    requires c.data.Failure?
  {
    && 2 <= c.used
    && c.data.error.lastRaw == Preview(reply(next + c.used - 1))
    && SomeStepRejected(specs, check, reply, next + c.used, c.data.error.step)
  }

  predicate SomeStepRejected(specs: seq<StepSpec>, check: Check, reply: nat -> string, end: nat, step: string)
  {
    exists i :: 0 <= i < |specs| && LastTwoRejected(specs, check, reply, end, step, i)
  }

  /** With call_step's own judgement every step of a successful chain that
      requires keys yields an object carrying them. */
  lemma CheckerObjects(specs: seq<StepSpec>, parse: string -> Option<Json>, reply: nat -> string, next: nat)
    requires CallChain(specs, Checker(parse), reply, next).data.Success?
    ensures var data := CallChain(specs, Checker(parse), reply, next).data.value;
      forall i :: 0 <= i < |specs| && 0 < |specs[i].keys| ==> data[i].JObj? && HasKeys(data[i].fields, specs[i].keys)
  {
    var c := CallChain(specs, Checker(parse), reply, next);
    forall i | 0 <= i < |specs| && 0 < |specs[i].keys|
      ensures c.data.value[i].JObj? && HasKeys(c.data.value[i].fields, specs[i].keys)
    {
      CheckerObjectAt(specs, parse, reply, next, i);
    }
  }

  /** Step i of CheckerObjects. */
  lemma CheckerObjectAt(specs: seq<StepSpec>, parse: string -> Option<Json>, reply: nat -> string, next: nat, i: nat)
    requires CallChain(specs, Checker(parse), reply, next).data.Success?
    requires i < |specs| && 0 < |specs[i].keys|
    ensures var data := CallChain(specs, Checker(parse), reply, next).data.value;
      data[i].JObj? && HasKeys(data[i].fields, specs[i].keys)
  {
    var c := CallChain(specs, Checker(parse), reply, next);
    var keys := specs[i].keys;
    var data := c.data.value[i];
    ChainAcceptedAt(specs, Checker(parse), reply, next, i);
    var n :| next <= n < next + c.used && AcceptedAt(reply, Checker(parse), keys, n, data);
    assert Attempt(reply(n), parse, keys) == Success(data);
  }

  /** The four steps of one iteration and the model calls they made. */
  datatype StepsCall = StepsCall(steps: Result<Steps, StepError>, used: nat)

  /** The four steps of one iteration, planner to controller, each through
      call_step with its required keys; the first step that fails twice ends
      the iteration. */
  function CallSteps(parse: string -> Option<Json>, reply: nat -> string, next: nat): (c: StepsCall)
    ensures 1 <= c.used <= 4 * MaxAttempts
    ensures c.steps.Success? ==> Complete(c.steps.value)
    ensures c.steps.Success? ==>
      var s := c.steps.value;
      CallChain(StepSpecs, Checker(parse), reply, next) ==
        ChainCall(Success([JObj(s.planner), JObj(s.executor), JObj(s.reviewer), JObj(s.controller)]), c.used)
    ensures c.steps.Failure? ==> CallChain(StepSpecs, Checker(parse), reply, next) == ChainCall(Failure(c.steps.error), c.used)
  {
    var chain := CallChain(StepSpecs, Checker(parse), reply, next);
    match chain.data
    case Failure(e) => StepsCall(Failure(e), chain.used)
    case Success(data) =>
      CheckerObjects(StepSpecs, parse, reply, next);
      StepSpecsRequireKeys();
      StepsCall(Success(ToSteps(data)), chain.used)
  }

  /** Each of the four steps' data is what extract_json and ensure_schema made
      of one of the replies the iteration consumed. */
  lemma CallStepsAccepted(parse: string -> Option<Json>, reply: nat -> string, next: nat)
    requires CallSteps(parse, reply, next).steps.Success?
    ensures var c := CallSteps(parse, reply, next);
      var s := c.steps.value;
      var to := next + c.used;
      && AcceptedWithin(reply, Checker(parse), PlannerKeys, next, to, JObj(s.planner))
      && AcceptedWithin(reply, Checker(parse), ExecutorKeys, next, to, JObj(s.executor))
      && AcceptedWithin(reply, Checker(parse), ReviewerKeys, next, to, JObj(s.reviewer))
      && AcceptedWithin(reply, Checker(parse), ControllerKeys, next, to, JObj(s.controller))
  {
    StepSpecsRequireKeys();
    ChainAcceptedAt(StepSpecs, Checker(parse), reply, next, 0);
    ChainAcceptedAt(StepSpecs, Checker(parse), reply, next, 1);
    ChainAcceptedAt(StepSpecs, Checker(parse), reply, next, 2);
    ChainAcceptedAt(StepSpecs, Checker(parse), reply, next, 3);
  }

  /** Every step requires some keys. */
  lemma StepSpecsRequireKeys()
    ensures |StepSpecs| == 4
    ensures StepSpecs[0].keys == PlannerKeys && StepSpecs[1].keys == ExecutorKeys
    ensures StepSpecs[2].keys == ReviewerKeys && StepSpecs[3].keys == ControllerKeys
    ensures forall i :: 0 <= i < 4 ==> 0 < |StepSpecs[i].keys|
  {
  }

  /** Four step objects, planner to controller. */
  function ToSteps(data: seq<Json>): (s: Steps)
    requires |data| == 4 && forall i :: 0 <= i < 4 ==> data[i].JObj?
    ensures [JObj(s.planner), JObj(s.executor), JObj(s.reviewer), JObj(s.controller)] == data
  {
    Steps(data[0].fields, data[1].fields, data[2].fields, data[3].fields)
  }

  /** How a run ended: a halting decision, max_iter iterations done, a step
      that failed twice, or a plan patch Python could not add. */
  datatype RunEnd = Halted | Exhausted | StepFailed(error: StepError) | PatchFailed(typeError: PatchError)

  /** What one iteration left behind: the state, the four steps' data if the
      iteration got as far as the controller, the run's end if the iteration
      ended it, and the model calls it made. */
  datatype IterationOutcome = IterationOutcome(state: LoopState, steps: Option<Steps>, end: Option<RunEnd>, used: nat)

  /** The body of run's for loop for index i, its model calls numbered from `next`. */
  function Iteration(st: LoopState, i: nat, parse: string -> Option<Json>, reply: nat -> string, next: nat): (o: IterationOutcome)
    ensures o.used == CallSteps(parse, reply, next).used
    ensures o.state.iteration == i && o.state.goal == st.goal
    ensures o.steps.None? <==> CallSteps(parse, reply, next).steps.Failure?
    ensures o.steps.Some? ==> o.steps.value == CallSteps(parse, reply, next).steps.value
    ensures o.steps.None? ==> o.end == Some(StepFailed(CallSteps(parse, reply, next).steps.error)) && o.state == st.(iteration := i)
    ensures o.steps.Some? ==>
      var summary := Summarize(st.(iteration := i), o.steps.value);
      var e := EndIteration(st.(iteration := i), o.steps.value);
      && (o.end.None? <==> Decide(o.steps.value.controller) == Continue && e.state.Success?)
      && (o.end == Some(Halted) <==> Decide(o.steps.value.controller) == Halt)
      && (o.end.None? || o.end == Some(Halted) ==> o.state == e.state.value)
      && (o.end == Some(Halted) ==> o.state == summary)
      && (e.state.Failure? ==> o.end == Some(PatchFailed(e.state.error)) && o.state == summary)
  {
    var current := st.(iteration := i);
    var call := CallSteps(parse, reply, next);
    match call.steps
    case Failure(err) => IterationOutcome(current, None, Some(StepFailed(err)), call.used)
    case Success(steps) =>
      var e := EndIteration(current, steps);
      match e.state
      case Failure(err) => IterationOutcome(Summarize(current, steps), Some(steps), Some(PatchFailed(err)), call.used)
      case Success(after) => IterationOutcome(after, Some(steps), if e.decision == Halt then Some(Halted) else None, call.used)
  }

  /** The iteration body run uses for its index and first model call: the
      loop below is stated for any body, and run's is IterationOf. */
  type Body = (LoopState, nat, nat) -> IterationOutcome

  function IterationOf(parse: string -> Option<Json>, reply: nat -> string): Body
  {
    (st: LoopState, i: nat, next: nat) => Iteration(st, i, parse, reply, next)
  }

  /** What the loop relies on from an iteration that started from st at index
      i: it sets the index and keeps the goal, calls the model one to eight
      times, never ends the run as Exhausted, ends it on a failed step exactly
      when it has no step data, and otherwise halts exactly when the
      controller says so. */
  predicate Sound(o: IterationOutcome, st: LoopState, i: nat, ok: Steps -> bool, halts: Steps -> bool)
  {
    && o.state.iteration == i
    && o.state.goal == st.goal
    && 1 <= o.used <= 4 * MaxAttempts
    && (o.end.Some? ==> !o.end.value.Exhausted?)
    && (o.steps.None? <==> o.end.Some? && o.end.value.StepFailed?)
    && (o.steps.Some? ==> ok(o.steps.value) && (o.end == Some(Halted) <==> halts(o.steps.value)))
  }

  /** The two judgements Sound takes for Run's own iteration. */
  const Completes: Steps -> bool := (s: Steps) => Complete(s)
  const Halts: Steps -> bool := (s: Steps) => Decide(s.controller) == Halt

  /** Run's iteration is sound. */
  lemma IterationSound(st: LoopState, i: nat, parse: string -> Option<Json>, reply: nat -> string, next: nat)
    ensures Sound(Iteration(st, i, parse, reply, next), st, i, Completes, Halts)
  {
    var o := Iteration(st, i, parse, reply, next);
    if o.steps.Some? {
      var e := EndIteration(st.(iteration := i), o.steps.value);
      assert e.state.Failure? ==> o.end.Some? && o.end.value.PatchFailed?;
    }
  }

  /** Run's iteration body is sound at every state, index and call number. */
  lemma IterationOfSound(parse: string -> Option<Json>, reply: nat -> string)
    ensures forall st, i, n :: Sound(IterationOf(parse, reply)(st, i, n), st, i, Completes, Halts)
  {
    forall st, i, n
      ensures Sound(IterationOf(parse, reply)(st, i, n), st, i, Completes, Halts)
    {
      IterationSound(st, i, parse, reply, n);
    }
  }

  /** What a run produced: the final state, how it ended, the four steps' data
      of every iteration that reached the controller, and the number of the
      next model call. */
  datatype RunResult = RunResult(state: LoopState, end: RunEnd, trace: seq<Steps>, calls: nat)

  /** The for loop from index i up to bound, as a recursive reference. */
  function RunFrom(body: Body, st: LoopState, i: nat, bound: nat, next: nat): RunResult
    decreases bound - i
  {
    if bound <= i then RunResult(st, Exhausted, [], next)
    else
      var o := body(st, i, next);
      var here := if o.steps.Some? then [o.steps.value] else [];
      if o.end.Some? then RunResult(o.state, o.end.value, here, next + o.used)
      else
        var rest := RunFrom(body, o.state, i + 1, bound, next + o.used);
        rest.(trace := here + rest.trace)
  }

  /** The iterations a run records: at most one per index left, every one
      reached the controller, and all but the last decided to continue. */
  lemma {:induction false} RunFromTrace(body: Body, ok: Steps -> bool, halts: Steps -> bool, st: LoopState, i: nat, bound: nat, next: nat)
    requires i <= bound
    requires forall st', i', n' :: Sound(body(st', i', n'), st', i', ok, halts)
    ensures var r := RunFrom(body, st, i, bound, next);
      && i + |r.trace| <= bound
      && (forall j :: 0 <= j < |r.trace| ==> ok(r.trace[j]))
      && (forall j :: 0 <= j < |r.trace| - 1 ==> !halts(r.trace[j]))
    decreases bound - i
  {
    if i < bound {
      var o := body(st, i, next);
      assert Sound(o, st, i, ok, halts);
      if o.end.None? {
        RunFromTrace(body, ok, halts, o.state, i + 1, bound, next + o.used);
        var rest := RunFrom(body, o.state, i + 1, bound, next + o.used);
        var r := RunFrom(body, st, i, bound, next);
        assert r.trace == [o.steps.value] + rest.trace;
        assert forall j :: 1 <= j < |r.trace| ==> r.trace[j] == rest.trace[j - 1];
      }
    }
  }

  /** How a run ends: Halted exactly when the last recorded iteration decided
      to halt, Exhausted only after an iteration at every index, and on a
      failed plan patch only after a decision to continue. */
  lemma {:induction false} RunFromEnd(body: Body, ok: Steps -> bool, halts: Steps -> bool, st: LoopState, i: nat, bound: nat, next: nat)
    requires i <= bound
    requires forall st', i', n' :: Sound(body(st', i', n'), st', i', ok, halts)
    ensures var r := RunFrom(body, st, i, bound, next);
      && (r.end == Halted <==> 0 < |r.trace| && halts(r.trace[|r.trace| - 1]))
      && (r.end == Exhausted ==> i + |r.trace| == bound)
      && (r.end.PatchFailed? ==> 0 < |r.trace| && !halts(r.trace[|r.trace| - 1]))
    decreases bound - i
  {
    if i < bound {
      var o := body(st, i, next);
      assert Sound(o, st, i, ok, halts);
      if o.end.None? {
        RunFromEnd(body, ok, halts, o.state, i + 1, bound, next + o.used);
        var rest := RunFrom(body, o.state, i + 1, bound, next + o.used);
        var r := RunFrom(body, st, i, bound, next);
        assert r.end == rest.end && r.trace == [o.steps.value] + rest.trace;
        assert 0 < |rest.trace| ==> r.trace[|r.trace| - 1] == rest.trace[|rest.trace| - 1];
      }
    }
  }

  /** Where a run leaves the state and how many model calls it makes: the goal
      never changes, the iteration index is that of the last iteration run, and
      each iteration costs at most four steps of MaxAttempts calls. */
  lemma {:induction false} RunFromProgress(body: Body, ok: Steps -> bool, halts: Steps -> bool, st: LoopState, i: nat, bound: nat, next: nat)
    requires i <= bound
    requires forall st', i', n' :: Sound(body(st', i', n'), st', i', ok, halts)
    ensures var r := RunFrom(body, st, i, bound, next);
      && r.state.goal == st.goal
      && (r.end.StepFailed? ==> r.state.iteration == i + |r.trace| && i + |r.trace| < bound)
      && (!r.end.StepFailed? && 0 < |r.trace| ==> r.state.iteration == i + |r.trace| - 1)
      && (i == bound ==> r == RunResult(st, Exhausted, [], next))
      && next <= r.calls <= next + 4 * MaxAttempts * (|r.trace| + (if r.end.StepFailed? then 1 else 0))
    decreases bound - i
  {
    if i < bound {
      var o := body(st, i, next);
      assert Sound(o, st, i, ok, halts);
      if o.end.None? {
        RunFromProgress(body, ok, halts, o.state, i + 1, bound, next + o.used);
      }
    }
  }

  /** LoopDriver.run. `trace` holds the four steps' data of every iteration
      that got as far as the controller, `calls` the number of model calls. */
  method Run(init: LoopState, maxIter: int, parse: string -> Option<Json>, reply: nat -> string)
    returns (st: LoopState, end: RunEnd, trace: seq<Steps>, calls: nat)
    ensures RunResult(st, end, trace, calls) == RunFrom(IterationOf(parse, reply), init, 0, if maxIter < 0 then 0 else maxIter, 0)
    ensures |trace| <= (if maxIter < 0 then 0 else maxIter)
    ensures forall j :: 0 <= j < |trace| ==> Complete(trace[j])
    ensures forall j :: 0 <= j < |trace| - 1 ==> Decide(trace[j].controller) == Continue
    ensures end == Halted <==> 0 < |trace| && Decide(trace[|trace| - 1].controller) == Halt
    ensures end == Exhausted ==> |trace| == (if maxIter < 0 then 0 else maxIter)
    ensures end.PatchFailed? ==> 0 < |trace| && Decide(trace[|trace| - 1].controller) == Continue
    ensures end.StepFailed? ==> st.iteration == |trace| && |trace| < maxIter
    ensures !end.StepFailed? && 0 < |trace| ==> st.iteration == |trace| - 1
    ensures st.goal == init.goal
    ensures maxIter <= 0 ==> st == init && end == Exhausted && calls == 0
    ensures calls <= 4 * MaxAttempts * (|trace| + (if end.StepFailed? then 1 else 0))
  {
    var bound := if maxIter < 0 then 0 else maxIter;
    var body := IterationOf(parse, reply);
    IterationOfSound(parse, reply);
    st, end, trace, calls := RunLoop(body, init, bound);
    RunFromTrace(body, Completes, Halts, init, 0, bound, 0);
    RunFromEnd(body, Completes, Halts, init, 0, bound, 0);
    RunFromProgress(body, Completes, Halts, init, 0, bound, 0);
  }

  /** The for loop of run over range(bound) with a given iteration body. */
  method RunLoop(body: Body, init: LoopState, bound: nat)
    returns (st: LoopState, end: RunEnd, trace: seq<Steps>, calls: nat)
    ensures RunResult(st, end, trace, calls) == RunFrom(body, init, 0, bound, 0)
  {
    st := init;
    trace := [];
    calls := 0;
    var i := 0;
    ghost var whole := RunAfter(body, init, 0, bound, 0, []);
    while i < bound
      invariant 0 <= i <= bound
      invariant whole == RunAfter(body, st, i, bound, calls, trace)
    {
      var o := body(st, i, calls);
      var here := if o.steps.Some? then [o.steps.value] else [];
      st, trace, calls := o.state, trace + here, calls + o.used;
      if o.end.Some? {
        end := o.end.value;
        break;
      }
      i := i + 1;
    }
    if i == bound {
      end := Exhausted;
    }
    RunAfterIsRunFrom(body, init, 0, bound, 0, []);
    assert [] + RunFrom(body, init, 0, bound, 0).trace == RunFrom(body, init, 0, bound, 0).trace;
  }

  /** RunFrom after `trace` has already been recorded. */
  function RunAfter(body: Body, st: LoopState, i: nat, bound: nat, next: nat, trace: seq<Steps>): RunResult
    decreases bound - i
  {
    if bound <= i then RunResult(st, Exhausted, trace, next)
    else
      var o := body(st, i, next);
      var here := if o.steps.Some? then [o.steps.value] else [];
      if o.end.Some? then RunResult(o.state, o.end.value, trace + here, next + o.used)
      else RunAfter(body, o.state, i + 1, bound, next + o.used, trace + here)
  }

  lemma {:induction false} RunAfterIsRunFrom(body: Body, st: LoopState, i: nat, bound: nat, next: nat, trace: seq<Steps>)
    ensures var r := RunFrom(body, st, i, bound, next);
      RunAfter(body, st, i, bound, next, trace) == r.(trace := trace + r.trace)
    decreases bound - i
  {
    if i < bound {
      var o := body(st, i, next);
      var here := if o.steps.Some? then [o.steps.value] else [];
      if o.end.None? {
        RunAfterIsRunFrom(body, o.state, i + 1, bound, next + o.used, trace + here);
        var rest := RunFrom(body, o.state, i + 1, bound, next + o.used);
        assert (trace + here) + rest.trace == trace + (here + rest.trace);
      }
    }
  }

  /** The loop stops exactly on "stop" or "pause"; every other value of a
      present "decision" continues it. */
  lemma DecisionRule(controller: map<string, Json>)
    requires "decision" in controller
    ensures Decide(controller) == Halt <==>
      controller["decision"] == JStr("stop") || controller["decision"] == JStr("pause")
  {
  }

  /** "decision" is a required key that ensure_schema fills with "", so a reply
      without it continues the loop: the "stop" default of the lookup is
      never used. */
  lemma MissingDecisionContinues(fields: map<string, Json>)
    requires "decision" !in fields
    ensures var filled := EnsureSchema(JObj(fields), ControllerKeys).value.fields;
      "decision" in filled && filled["decision"] == JStr("") && Decide(filled) == Continue
  {
    EnsureSchemaContents(fields, ControllerKeys);
  }

  /** Under "adjust_plan" with a non-empty list patch and a list plan, the new
      plan is the patch followed by the planner's plan. */
  lemma AdjustPlanPrepends(st: LoopState, s: Steps, patch: seq<Json>, plan: seq<Json>)
    requires Get(s.controller, "decision", JStr("stop")) == JStr("adjust_plan")
    requires Get(s.controller, "plan_patch", JNull) == JArr(patch) && patch != []
    requires Get(s.planner, "plan", JArr([])) == JArr(plan)
    ensures EndIteration(st, s) == IterationEnd(Continue, Success(Summarize(st, s).(plan := JArr(patch + plan))))
  {
    assert Get(s.controller, "plan_patch", JArr([])) == JArr(patch);
  }

  /** Without "adjust_plan", or with a falsy plan_patch, the plan is the planner's. */
  lemma PlanFromPlanner(st: LoopState, s: Steps)
    requires Get(s.controller, "decision", JStr("stop")) != JStr("adjust_plan") || !Truthy(Get(s.controller, "plan_patch", JNull))
    ensures EndIteration(st, s).state == Success(Summarize(st, s))
    ensures EndIteration(st, s).state.value.plan == Get(s.planner, "plan", JArr([]))
  {
  }

  /** A planner reply without "plan" gets "" from ensure_schema ("plan" does
      not end in "s"); a later list patch then cannot be added to it and run
      raises a TypeError. */
  lemma MissingPlanBreaksPatch(planner: map<string, Json>, s: Steps, st: LoopState, item: Json)
    requires "plan" !in planner
    requires s.planner == EnsureSchema(JObj(planner), PlannerKeys).value.fields
    requires Get(s.controller, "decision", JStr("stop")) == JStr("adjust_plan")
    requires Get(s.controller, "plan_patch", JNull) == JArr([item])
    ensures EndIteration(st, s).state.Failure?
  {
    assert "plan" in s.planner && s.planner["plan"] == JStr("") by {
      EnsureSchemaContents(planner, PlannerKeys);
    }
    assert Summarize(st, s).plan == JStr("");
    assert Decide(s.controller) == Continue;
    assert Get(s.controller, "plan_patch", JArr([])) == JArr([item]);
    assert PyAdd(JArr([item]), JStr("")) == None;
  }
}

=== FILE: extract.dfy ===
/** The pure helpers of loop_driver.py: extract_json, which cuts the JSON
    object out of a model reply, and ensure_schema, which fills in the keys a
    step requires. json.loads is a parameter: any parser that may fail. */
module Extract {
  import opened Wrappers
  import opened Json

  /** str.find(c) from index i: the first occurrence at or after i, or -1. */
  function FindFrom(text: string, c: char, i: nat): (r: int)
    requires i <= |text|
    ensures r == -1 || i <= r < |text|
    ensures r == -1 ==> forall j :: i <= j < |text| ==> text[j] != c
    ensures r != -1 ==> text[r] == c && forall j :: i <= j < r ==> text[j] != c
    decreases |text| - i
  {
    if i == |text| then -1
    else if text[i] == c then i
    else FindFrom(text, c, i + 1)
  }

  /** str.find(c) */
  function Find(text: string, c: char): (r: int)
    ensures -1 <= r < |text|
    ensures r == -1 ==> forall j :: 0 <= j < |text| ==> text[j] != c
    ensures r != -1 ==> text[r] == c && forall j :: 0 <= j < r ==> text[j] != c
  {
    FindFrom(text, c, 0)
  }

  /** The last occurrence of c in text[..n], or -1. */
  function RFindBelow(text: string, c: char, n: nat): (r: int)
    requires n <= |text|
    ensures r == -1 || 0 <= r < n
    ensures r == -1 ==> forall j :: 0 <= j < n ==> text[j] != c
    ensures r != -1 ==> text[r] == c && forall j :: r < j < n ==> text[j] != c
    decreases n
  {
    if n == 0 then -1
    else if text[n - 1] == c then n - 1
    else RFindBelow(text, c, n - 1)
  }

  /** str.rfind(c) */
  function RFind(text: string, c: char): (r: int)
    ensures -1 <= r < |text|
    ensures r == -1 ==> forall j :: 0 <= j < |text| ==> text[j] != c
    ensures r != -1 ==> text[r] == c && forall j :: r < j < |text| ==> text[j] != c
  {
    RFindBelow(text, c, |text|)
  }

  /** The slice extract_json hands to the parser: from the first '{' to the
      last '}' inclusive, or None when there is no '{', no '}', or the last '}'
      comes before the first '{'. */
  function Snippet(text: string): (r: Option<string>)
    ensures r.Some? ==>
      var first, last := Find(text, '{'), RFind(text, '}');
      && 0 <= first < last < |text|
      && r.value == text[first..last + 1]
      && |r.value| == last - first + 1
      && r.value[0] == '{' && r.value[|r.value| - 1] == '}'
  {
    var first := Find(text, '{');
    var last := RFind(text, '}');
    if first == -1 || last == -1 || last < first then None
    else Some(text[first..last + 1])
  }

  /** extract_json fails exactly when no '}' follows a '{' anywhere in the text. */
  lemma SnippetFailsIff(text: string)
    ensures Snippet(text).None? <==>
      !exists i, j :: 0 <= i < j < |text| && text[i] == '{' && text[j] == '}'
  {
    var first, last := Find(text, '{'), RFind(text, '}');
    if exists i, j :: 0 <= i < j < |text| && text[i] == '{' && text[j] == '}' {
      var i, j :| 0 <= i < j < |text| && text[i] == '{' && text[j] == '}';
      assert first != -1 && first <= i;
      assert last != -1 && j <= last;
    }
    if Snippet(text).Some? {
      assert text[first] == '{' && text[last] == '}';
    }
  }

  datatype ExtractError = NoJsonObject | InvalidJson(snippet: string)

  /** extract_json(text) with `parse` in place of json.loads. */
  function ExtractJson(text: string, parse: string -> Option<Json>): (r: Result<Json, ExtractError>)
    ensures r == Failure(NoJsonObject) <==> Snippet(text).None?
    ensures Snippet(text).Some? ==>
      match parse(Snippet(text).value)
      case Some(v) => r == Success(v)
      case None => r == Failure(InvalidJson(Snippet(text).value))
  {
    match Snippet(text)
    case None => Failure(NoJsonObject)
    case Some(snippet) =>
      match parse(snippet)
      case Some(v) => Success(v)
      case None => Failure(InvalidJson(snippet))
  }

  /** The filler for a missing key: [] for a name ending in "s", else "". */
  function DefaultFor(key: string): Json
  {
    if 0 < |key| && key[|key| - 1] == 's' then JArr([]) else JStr("")
  }

  /** The loop of ensure_schema over `required`, on the object's fields. */
  function FillMissing(fields: map<string, Json>, required: seq<string>): (r: map<string, Json>)
    ensures forall k :: k in required ==> k in r
    ensures forall k :: k in fields ==> k in r && r[k] == fields[k]
    ensures forall k :: k in r && k !in fields ==> k in required && r[k] == DefaultFor(k)
    decreases |required|
  {
    if |required| == 0 then fields
    else
      var key := required[0];
      var next := if key in fields then fields else fields[key := DefaultFor(key)];
      FillMissing(next, required[1..])
  }

  datatype SchemaError = NotAnObject

  /** ensure_schema(obj, required) */
  function EnsureSchema(obj: Json, required: seq<string>): (r: Result<Json, SchemaError>)
    ensures r.Failure? <==> !obj.JObj?
    ensures r.Success? ==> r.value.JObj? && forall k :: k in required ==> k in r.value.fields
  {
    match obj
    case JObj(fields) => Success(JObj(FillMissing(fields, required)))
    case _ => Failure(NotAnObject)
  }

  /** Exactly the missing required keys are added, each with its default;
      keys already present keep their values. */
  lemma EnsureSchemaContents(fields: map<string, Json>, required: seq<string>)
    ensures var r := EnsureSchema(JObj(fields), required).value.fields;
      && r.Keys == fields.Keys + (set k | k in required)
      && (forall k :: k in fields ==> r[k] == fields[k])
      && (forall k :: k in required && k !in fields ==> r[k] == DefaultFor(k))
  {
  }

  lemma {:induction false} FillMissingComplete(fields: map<string, Json>, required: seq<string>)
    requires forall k :: k in required ==> k in fields
    ensures FillMissing(fields, required) == fields
    decreases |required|
  {
    if |required| > 0 {
      FillMissingComplete(fields, required[1..]);
    }
  }

  /** Applying ensure_schema twice is the same as applying it once. */
  lemma EnsureSchemaIdempotent(obj: Json, required: seq<string>)
    requires obj.JObj?
    ensures EnsureSchema(EnsureSchema(obj, required).value, required) == EnsureSchema(obj, required)
  {
    FillMissingComplete(EnsureSchema(obj, required).value.fields, required);
  }
}

=== FILE: json.dfy ===
/** JSON values as json.loads returns them to the loop driver, with the two
    Python operations the driver applies to them: truthiness and `+`. */
module Json {
  import opened Wrappers

  /** Numbers are integers here; see README for floats. */
  datatype Json =
    | JNull
    | JBool(b: bool)
    | JNum(n: int)
    | JStr(s: string)
    | JArr(items: seq<Json>)
    | JObj(fields: map<string, Json>)

  /** bool(v) in Python: None, False, 0, "", [] and {} are false. */
  predicate Truthy(v: Json)
  {
    match v
    case JNull => false
    case JBool(b) => b
    case JNum(n) => n != 0
    case JStr(s) => s != ""
    case JArr(items) => items != []
    case JObj(fields) => fields != map[]
  }

  /** dict.get(key, default) */
  function Get(obj: map<string, Json>, key: string, default: Json): Json
  {
    if key in obj then obj[key] else default
  }

  predicate IsNumber(v: Json)
  {
    v.JNum? || v.JBool?
  }

  /** The integer value of a number; True and False are 1 and 0. */
  function NumberValue(v: Json): int
    requires IsNumber(v)
  {
    match v
    case JNum(n) => n
    case JBool(b) => if b then 1 else 0
  }

  /** a + b: lists and strings concatenate, numbers add, anything else is a
      TypeError (None here). */
  function PyAdd(a: Json, b: Json): (r: Option<Json>)
    ensures r.Some? <==> (a.JArr? && b.JArr?) || (a.JStr? && b.JStr?) || (IsNumber(a) && IsNumber(b))
    ensures a.JArr? && b.JArr? ==> r == Some(JArr(a.items + b.items))
    ensures a.JStr? && b.JStr? ==> r == Some(JStr(a.s + b.s))
    ensures IsNumber(a) && IsNumber(b) ==> r == Some(JNum(NumberValue(a) + NumberValue(b)))
  {
    if a.JArr? && b.JArr? then Some(JArr(a.items + b.items))
    else if a.JStr? && b.JStr? then Some(JStr(a.s + b.s))
    else if IsNumber(a) && IsNumber(b) then Some(JNum(NumberValue(a) + NumberValue(b)))
    else None
  }
}

=== FILE: metrics.dfy ===
/** The two instruments of the metrics package as plain values: the
    http_requests_total counter vector, labelled by method, path and status,
    and the http_inflight_requests gauge. The exposition library that
    publishes them is not part of this model. */
module Metrics {

  /** One label tuple of http_requests_total, in declaration order. */
  datatype Key = Key(httpMethod: string, path: string, status: string)

  /** The registry: one count per series created so far, and the gauge. The
      library keeps float64 values; unbounded integers agree with them while
      every value stays below 2^53. */
  datatype MetricsState = MetricsState(requests: map<Key, nat>, inflight: int)

  /** The registry at process start: no series yet, gauge at zero. */
  const Initial := MetricsState(map[], 0)

  /** The value a series reads as; a series not yet created reads as zero. */
  function Count(ms: MetricsState, k: Key): nat
  {
    if k in ms.requests then ms.requests[k] else 0
  }

  /** WithLabelValues(k).Inc(): creates the series on first use, then adds one. */
  function IncRequests(ms: MetricsState, k: Key): (r: MetricsState)
    ensures Count(r, k) == Count(ms, k) + 1
    ensures forall k' :: k' != k ==> Count(r, k') == Count(ms, k')
    ensures r.requests.Keys == ms.requests.Keys + {k}
    ensures r.inflight == ms.inflight
  {
    ms.(requests := ms.requests[k := Count(ms, k) + 1])
  }

  /** HTTPInflight.Inc() */
  function IncInflight(ms: MetricsState): MetricsState
  {
    ms.(inflight := ms.inflight + 1)
  }

  /** HTTPInflight.Dec() */
  function DecInflight(ms: MetricsState): MetricsState
  {
    ms.(inflight := ms.inflight - 1)
  }

  /** No series disappears and no count goes down. */
  ghost predicate NoDecrease(a: MetricsState, b: MetricsState)
  {
    && a.requests.Keys <= b.requests.Keys
    && forall k :: k in a.requests ==> a.requests[k] <= b.requests[k]
  }
}

=== FILE: server.dfy ===
/** The HTTP server of internal/server/server.go: the two probe handlers, the
    responseWriter decorator that captures the status, the instrumentation
    middleware, the exact-path multiplexer, and the New/Start/Shutdown
    lifecycle. Requests are served one after another; a handler is the
    sequence of calls it makes on its http.ResponseWriter. */
module Server {
  import opened Wrappers
  import opened Metrics
  import Decimal

  const MethodGet := "GET"
  const StatusOK := 200
  const StatusNotFound := 404
  const StatusMethodNotAllowed := 405

  const HealthzPath := "/healthz"
  const ReadyzPath := "/readyz"
  const MetricsPath := "/metrics"

  /** The parts of an *http.Request the server reads: r.Method and r.URL.Path. */
  datatype Request = Request(httpMethod: string, path: string)

  /** One call a handler makes on its http.ResponseWriter. */
  datatype WriterCall = WriteHeader(code: int) | Write(data: string)

  /** A 1xx code other than 101 Switching Protocols: net/http sends it as an
      interim response and leaves the final status open. */
  predicate Informational(code: int)
  {
    100 <= code <= 199 && code != 101
  }

  /** The final status the client receives from net/http: the first call that
      is not an informational WriteHeader fixes it, either an explicit
      WriteHeader or the implicit 200 of a Write; a handler that writes
      nothing final answers 200. */
  function ClientStatus(calls: seq<WriterCall>): int
  {
    if |calls| == 0 then StatusOK
    else if calls[0].Write? then StatusOK
    else if Informational(calls[0].code) then ClientStatus(calls[1..])
    else calls[0].code
  }

  /** The body the client receives: every Write, in order. */
  function Body(calls: seq<WriterCall>): string
  {
    if |calls| == 0 then ""
    else (if calls[0].Write? then calls[0].data else "") + Body(calls[1..])
  }

  /** healthz and readyz share one shape: any method but GET gets 405 and no
      body, GET gets 200 and the fixed body. */
  function Probe(r: Request, body: string): (calls: seq<WriterCall>)
    ensures r.httpMethod != MethodGet ==> ClientStatus(calls) == StatusMethodNotAllowed && Body(calls) == ""
    ensures r.httpMethod == MethodGet ==> ClientStatus(calls) == StatusOK && Body(calls) == body
  {
    if r.httpMethod != MethodGet then [WriteHeader(StatusMethodNotAllowed)]
    else
      var calls := [WriteHeader(StatusOK), Write(body)];
      assert calls[1..] == [Write(body)] && calls[1..][1..] == [];
      assert Body(calls[1..]) == body;
      calls
  }

  function Healthz(r: Request): seq<WriterCall>
  {
    Probe(r, "ok")
  }

  function Readyz(r: Request): seq<WriterCall>
  {
    Probe(r, "ready")
  }

  /** The responseWriter decorator: the status it has seen (0, Go's zero value,
      until WriteHeader is called) and the calls passed on to the wrapped writer. */
  datatype Recorder = Recorder(status: int, forwarded: seq<WriterCall>)

  /** One call through the decorator. WriteHeader records the code and forwards
      it; Write is the embedded writer's own method and is only forwarded. */
  function Through(rw: Recorder, c: WriterCall): Recorder
  {
    match c
    case WriteHeader(code) => Recorder(code, rw.forwarded + [c])
    case Write(_) => Recorder(rw.status, rw.forwarded + [c])
  }

  ghost predicate NoHeaderAfter(calls: seq<WriterCall>, i: int)
  {
    forall j :: 0 <= j < |calls| && i < j ==> !calls[j].WriteHeader?
  }

  /** A handler's calls as seen through the decorator: every call reaches the
      wrapped writer unchanged, and the status held is the code of the last
      WriteHeader, or 0 when there was none. */
  function Capture(calls: seq<WriterCall>): (rw: Recorder)
    ensures rw.forwarded == calls
    ensures NoHeaderAfter(calls, -1) ==> rw.status == 0
    ensures !NoHeaderAfter(calls, -1) ==>
      exists i :: 0 <= i < |calls| && calls[i] == WriteHeader(rw.status) && NoHeaderAfter(calls, i)
  {
    if |calls| == 0 then Recorder(0, [])
    else
      var prefix := calls[..|calls| - 1];
      var last := calls[|calls| - 1];
      var rw := Capture(prefix);
      assert calls == prefix + [last];
      Through(rw, last)
  }

  /** The status the middleware records: a status never set, still 0, is
      recorded as 200. */
  function RecordedStatus(calls: seq<WriterCall>): (s: int)
    ensures s != 0
    ensures NoHeaderAfter(calls, -1) ==> s == StatusOK
  {
    var s := Capture(calls).status;
    if s == 0 then StatusOK else s
  }

  /** The recorded status is 200 when the handler never called WriteHeader,
      and otherwise the code of its last WriteHeader call (0 still reading as 200). */
  lemma RecordedStatusRule(calls: seq<WriterCall>)
    ensures NoHeaderAfter(calls, -1) ==> RecordedStatus(calls) == StatusOK
    ensures forall i :: 0 <= i < |calls| && calls[i].WriteHeader? && NoHeaderAfter(calls, i) ==>
      RecordedStatus(calls) == (if calls[i].code == 0 then StatusOK else calls[i].code)
  {
    var rw := Capture(calls);
    forall i | 0 <= i < |calls| && calls[i].WriteHeader? && NoHeaderAfter(calls, i)
      ensures RecordedStatus(calls) == (if calls[i].code == 0 then StatusOK else calls[i].code)
    {
      var w :| 0 <= w < |calls| && calls[w] == WriteHeader(rw.status) && NoHeaderAfter(calls, w);
      assert !(i < w) && !(w < i);
    }
  }

  /** The series a completed request is counted under: method, literal path,
      and the decimal recorded status. */
  function RequestKey(r: Request, calls: seq<WriterCall>): Key
  {
    Key(r.httpMethod, r.path, Decimal.FormatInt(RecordedStatus(calls)))
  }

  datatype Outcome = Returned | Panicked

  /** What the wrapped handler did: the writer calls it made, and whether it then
      returned or panicked. */
  datatype HandlerRun = HandlerRun(calls: seq<WriterCall>, outcome: Outcome)

  /** One pass through the middleware: the registry afterwards, the gauge while
      the handler ran, what reached the client's writer, and how it ended. */
  datatype Exchange = Exchange(metrics: MetricsState, inflightDuring: int, calls: seq<WriterCall>, outcome: Outcome)

  /** middleware(next) applied to one request. The gauge goes up before the
      handler and the deferred decrement brings it back on every exit; the
      counter increment is not deferred, so a panic skips it. */
  function Middleware(ms: MetricsState, r: Request, run: HandlerRun): (x: Exchange)
    ensures x.inflightDuring == ms.inflight + 1
    ensures x.metrics.inflight == ms.inflight
    ensures x.calls == run.calls
    ensures x.outcome == run.outcome
    ensures run.outcome == Panicked ==> x.metrics.requests == ms.requests
    ensures run.outcome == Returned ==>
      Count(x.metrics, RequestKey(r, run.calls)) == Count(ms, RequestKey(r, run.calls)) + 1
    ensures forall k :: k != RequestKey(r, run.calls) ==> Count(x.metrics, k) == Count(ms, k)
    ensures NoDecrease(ms, x.metrics)
  {
    var entered := IncInflight(ms);
    var rw := Capture(run.calls);
    var recorded :=
      if run.outcome == Panicked then entered
      else IncRequests(entered, RequestKey(r, run.calls));
    Exchange(DecInflight(recorded), entered.inflight, rw.forwarded, run.outcome)
  }

  /** What a handler's calls look like when the status the middleware records
      is the one the client sees: at most one WriteHeader, as the very first
      call, with a code that is neither 0 nor informational. */
  ghost predicate SingleLeadingHeader(calls: seq<WriterCall>)
  {
    && NoHeaderAfter(calls, 0)
    && (0 < |calls| && calls[0].WriteHeader? ==> calls[0].code != 0 && !Informational(calls[0].code))
  }

  /** Instrumentation does not change the status: for handlers of the shape
      above, the recorded label is the status the client receives. */
  lemma RecordedIsClientStatus(calls: seq<WriterCall>)
    requires SingleLeadingHeader(calls)
    ensures RecordedStatus(calls) == ClientStatus(calls)
  {
    var rw := Capture(calls);
    if !NoHeaderAfter(calls, -1) {
      var i :| 0 <= i < |calls| && calls[i] == WriteHeader(rw.status) && NoHeaderAfter(calls, i);
      assert i == 0;
    }
  }

  /** The decorator keeps the LAST code, net/http keeps the FIRST final one: a
      handler that called WriteHeader with two different codes is counted under
      a status its client never saw. Neither probe handler does this. */
  lemma SecondHeaderDivergence(a: int, b: int)
    requires !Informational(a) && b != 0
    ensures RecordedStatus([WriteHeader(a), WriteHeader(b)]) == b
    ensures ClientStatus([WriteHeader(a), WriteHeader(b)]) == a
    ensures a != b ==> RecordedStatus([WriteHeader(a), WriteHeader(b)]) != ClientStatus([WriteHeader(a), WriteHeader(b)])
  {
    var calls := [WriteHeader(a), WriteHeader(b)];
    assert calls[..1] == [WriteHeader(a)];
    assert [WriteHeader(a)][..0] == [];
  }

  /** An informational code alone is recorded as the request's status, while
      the client's final status is the implicit 200. */
  lemma InformationalDivergence(code: int)
    requires Informational(code)
    ensures RecordedStatus([WriteHeader(code)]) == code
    ensures ClientStatus([WriteHeader(code)]) == StatusOK
  {
    assert [WriteHeader(code)][..0] == [];
  }

  /** The target of each registered pattern. */
  datatype Route = HealthzRoute | ReadyzRoute | MetricsRoute

  /** registerRoutes: three exact patterns. */
  function Routes(): (mux: map<string, Route>)
    ensures mux.Keys == {HealthzPath, ReadyzPath, MetricsPath}
  {
    map[HealthzPath := HealthzRoute, ReadyzPath := ReadyzRoute, MetricsPath := MetricsRoute]
  }

  /** The Server struct: its port, its mux, the http.Server built by Start
      (represented by its listen address), and whether shutdownOnce has fired. */
  datatype Srv = Srv(port: string, mux: map<string, Route>, httpServer: Option<string>, shutdownDone: bool)

  /** New(port) */
  function New(port: string): (s: Srv)
    ensures s.port == port
    ensures s.mux == Routes()
    ensures s.httpServer == None && !s.shutdownDone
  {
    Srv(port, Routes(), None, false)
  }

  /** What the client gets: the calls a handler made, or the metrics export,
      whose text the exposition library writes. */
  datatype Reply = Written(calls: seq<WriterCall>) | Exposition

  datatype Served = Served(metrics: MetricsState, reply: Reply)

  /** http.NotFound, the mux's answer for an unregistered path. */
  function NotFound(): seq<WriterCall>
  {
    [WriteHeader(StatusNotFound), Write("404 page not found\n")]
  }

  /** ServeHTTP of the mux for one request: exact path lookup; the probes run
      inside the middleware, /metrics goes straight to the exporter. The
      request target "*", which net/http answers before routing, is not
      modelled: it is looked up like any other path. */
  function ServeHTTP(mux: map<string, Route>, ms: MetricsState, r: Request): (x: Served)
    ensures r.path !in mux ==> x == Served(ms, Written(NotFound()))
  {
    if r.path !in mux then Served(ms, Written(NotFound()))
    else match mux[r.path]
      case HealthzRoute =>
        var e := Middleware(ms, r, HandlerRun(Healthz(r), Returned));
        Served(e.metrics, Written(e.calls))
      case ReadyzRoute =>
        var e := Middleware(ms, r, HandlerRun(Readyz(r), Returned));
        Served(e.metrics, Written(e.calls))
      case MetricsRoute =>
        Served(ms, Exposition)
  }

  /** Routing is by exact path: only the three registered paths reach a
      handler; every other path, "/healthz/extra" and "/" included, is a 404
      that leaves the registry as it was. */
  lemma UnknownPathNotFound(port: string, ms: MetricsState, r: Request)
    requires r.path != HealthzPath && r.path != ReadyzPath && r.path != MetricsPath
    ensures ServeHTTP(New(port).mux, ms, r).metrics == ms
    ensures ServeHTTP(New(port).mux, ms, r).reply.Written?
    ensures ClientStatus(ServeHTTP(New(port).mux, ms, r).reply.calls) == StatusNotFound
  {
  }

  /** /metrics bypasses the middleware: neither instrument moves. */
  lemma MetricsPathUninstrumented(port: string, ms: MetricsState, httpMethod: string)
    ensures ServeHTTP(New(port).mux, ms, Request(httpMethod, MetricsPath)) == Served(ms, Exposition)
  {
  }

  lemma StatusLabels()
    ensures Decimal.FormatInt(StatusOK) == "200"
    ensures Decimal.FormatInt(StatusMethodNotAllowed) == "405"
  {
    assert Decimal.NatString(2) == "2";
    assert Decimal.NatString(20) == "20";
    assert Decimal.NatString(4) == "4";
    assert Decimal.NatString(40) == "40";
  }

  /** The label a probe's answer is counted under: "200" for GET, "405" otherwise. */
  lemma ProbeKey(r: Request, body: string)
    ensures RequestKey(r, Probe(r, body)) == Key(r.httpMethod, r.path, if r.httpMethod == MethodGet then "200" else "405")
  {
    var calls := Probe(r, body);
    RecordedIsClientStatus(calls);
    StatusLabels();
  }

  /** A probe request end to end: the client sees 405 and no body for any
      method but GET, and 200 with the probe's body for GET; exactly the
      series (method, path, status) gains one, and the gauge is back where it
      was. */
  lemma ProbeServed(port: string, ms: MetricsState, r: Request)
    requires r.path == HealthzPath || r.path == ReadyzPath
    ensures var x := ServeHTTP(New(port).mux, ms, r);
      var body := if r.path == HealthzPath then "ok" else "ready";
      var k := Key(r.httpMethod, r.path, if r.httpMethod == MethodGet then "200" else "405");
      && x.reply == Written(Probe(r, body))
      && x.metrics.inflight == ms.inflight
      && Count(x.metrics, k) == Count(ms, k) + 1
      && (forall k' :: k' != k ==> Count(x.metrics, k') == Count(ms, k'))
  {
    var body := if r.path == HealthzPath then "ok" else "ready";
    ProbeKey(r, body);
    assert New(port).mux[r.path] == (if r.path == HealthzPath then HealthzRoute else ReadyzRoute);
  }

  /** Requests served one after another. */
  function ServeAll(mux: map<string, Route>, ms: MetricsState, rs: seq<Request>): MetricsState
    decreases |rs|
  {
    if |rs| == 0 then ms else ServeAll(mux, ServeHTTP(mux, ms, rs[0]).metrics, rs[1..])
  }

  /** The series a request is counted under, if it reaches the middleware. */
  function KeyFor(mux: map<string, Route>, r: Request): Option<Key>
  {
    if r.path !in mux then None
    else match mux[r.path]
      case HealthzRoute => Some(RequestKey(r, Healthz(r)))
      case ReadyzRoute => Some(RequestKey(r, Readyz(r)))
      case MetricsRoute => None
  }

  /** How many of `rs` are counted under `k`. */
  function Tally(mux: map<string, Route>, rs: seq<Request>, k: Key): nat
    decreases |rs|
  {
    if |rs| == 0 then 0
    else (if KeyFor(mux, rs[0]) == Some(k) then 1 else 0) + Tally(mux, rs[1..], k)
  }

  lemma ServeOneCounts(mux: map<string, Route>, ms: MetricsState, r: Request, k: Key)
    ensures Count(ServeHTTP(mux, ms, r).metrics, k) == Count(ms, k) + (if KeyFor(mux, r) == Some(k) then 1 else 0)
    ensures ServeHTTP(mux, ms, r).metrics.inflight == ms.inflight
    ensures NoDecrease(ms, ServeHTTP(mux, ms, r).metrics)
  {
  }

  /** After any run of requests the gauge is back to its starting value, no
      count has gone down, and each series has grown by exactly the number of
      requests counted under it. */
  lemma {:induction false} ServeAllCounts(mux: map<string, Route>, ms: MetricsState, rs: seq<Request>, k: Key)
    ensures Count(ServeAll(mux, ms, rs), k) == Count(ms, k) + Tally(mux, rs, k)
    ensures ServeAll(mux, ms, rs).inflight == ms.inflight
    ensures NoDecrease(ms, ServeAll(mux, ms, rs))
    decreases |rs|
  {
    if |rs| > 0 {
      var next := ServeHTTP(mux, ms, rs[0]).metrics;
      ServeOneCounts(mux, ms, rs[0], k);
      ServeAllCounts(mux, next, rs[1..], k);
    }
  }

  /** n GET /healthz requests: the series (GET, /healthz, 200) grows by n and
      the gauge ends where it started. */
  lemma HealthzBurst(port: string, ms: MetricsState, n: nat)
    ensures var rs := seq(n, _ => Request(MethodGet, HealthzPath));
      var after := ServeAll(New(port).mux, ms, rs);
      && Count(after, Key(MethodGet, HealthzPath, "200")) == Count(ms, Key(MethodGet, HealthzPath, "200")) + n
      && after.inflight == ms.inflight
  {
    var rs := seq(n, _ => Request(MethodGet, HealthzPath));
    var k := Key(MethodGet, HealthzPath, "200");
    ServeAllCounts(New(port).mux, ms, rs, k);
    StatusLabels();
    TallyAll(New(port).mux, rs, k);
  }

  /** From a fresh registry, after any run of requests the gauge reads zero
      and every series reads exactly the number of requests counted under it. */
  lemma ServeFromStart(port: string, rs: seq<Request>)
    ensures var after := ServeAll(New(port).mux, Initial, rs);
      && after.inflight == 0
      && forall k :: Count(after, k) == Tally(New(port).mux, rs, k)
  {
    var after := ServeAll(New(port).mux, Initial, rs);
    forall k
      ensures Count(after, k) == Tally(New(port).mux, rs, k)
    {
      ServeAllCounts(New(port).mux, Initial, rs, k);
    }
    ServeAllCounts(New(port).mux, Initial, rs, Key("", "", ""));
  }

  lemma {:induction false} TallyAll(mux: map<string, Route>, rs: seq<Request>, k: Key)
    requires forall i :: 0 <= i < |rs| ==> KeyFor(mux, rs[i]) == Some(k)
    ensures Tally(mux, rs, k) == |rs|
    decreases |rs|
  {
    if |rs| > 0 {
      TallyAll(mux, rs[1..], k);
    }
  }

  /** Start, up to ListenAndServe: builds the http.Server listening on ":" + port. */
  function Start(s: Srv): (r: (Srv, string))
    ensures r.1 == ":" + s.port
    ensures r.0 == s.(httpServer := Some(r.1))
  {
    var addr := ":" + s.port;
    (s.(httpServer := Some(addr)), addr)
  }

  /** What one Shutdown call did: the server after it, whether it shut the
      http.Server down, and the error it returned. */
  datatype ShutdownResult = ShutdownResult(server: Srv, stoppedListener: bool, err: Option<string>)

  /** Shutdown: the body runs under shutdownOnce and only touches an
      http.Server that Start has built; the call always returns nil. */
  function Shutdown(s: Srv): (r: ShutdownResult)
    ensures r.err == None
    ensures r.server == s.(shutdownDone := true)
    ensures r.stoppedListener <==> !s.shutdownDone && s.httpServer.Some?
  {
    if s.shutdownDone then ShutdownResult(s, false, None)
    else ShutdownResult(s.(shutdownDone := true), s.httpServer.Some?, None)
  }

  /** n calls of Shutdown: the server after them and how many stopped the listener. */
  function ShutdownTimes(s: Srv, n: nat): (Srv, nat)
    decreases n
  {
    if n == 0 then (s, 0)
    else
      var r := Shutdown(s);
      var rest := ShutdownTimes(r.server, n - 1);
      (rest.0, rest.1 + (if r.stoppedListener then 1 else 0))
  }

  /** However often Shutdown is called, the listener is shut down at most
      once, and exactly once when some call finds a started, not yet shut
      down server. */
  lemma {:induction false} ShutdownAtMostOnce(s: Srv, n: nat)
    ensures ShutdownTimes(s, n).1 <= 1
    ensures n >= 1 ==> (ShutdownTimes(s, n).1 == 1 <==> !s.shutdownDone && s.httpServer.Some?)
    ensures n >= 1 ==> ShutdownTimes(s, n).0.shutdownDone
    decreases n
  {
    if n >= 1 {
      var r := Shutdown(s);
      ShutdownAfterDone(r.server, n - 1);
    }
  }

  lemma {:induction false} ShutdownAfterDone(s: Srv, n: nat)
    requires s.shutdownDone
    ensures ShutdownTimes(s, n) == (s, 0)
    decreases n
  {
    if n >= 1 {
      ShutdownAfterDone(s, n - 1);
    }
  }

  /** A Shutdown before Start uses up the once: the server Start builds
      afterwards is never shut down by a later Shutdown. */
  lemma ShutdownBeforeStartDisarms(port: string)
    ensures var early := Shutdown(New(port));
      var started := Start(early.server).0;
      && !early.stoppedListener
      && !Shutdown(started).stoppedListener
  {
  }
}

=== FILE: wrappers.dfy ===
/** Failure-carrying values: Option stands for Go's nil-or-value returns,
    Result for a value or the error (or Python exception) that replaces it. */
module Wrappers {

  datatype Option<+T> = None | Some(value: T)

  datatype Result<+R, +E> = Success(value: R) | Failure(error: E)
}
